=== FILE: README.md ===
# Mean Well NPB charger register protocol in Dafny

This project models `mean_well_charger.py`, the driver that reads and writes
the registers of a Mean Well NPB battery charger over a CAN bus. It proves
properties of the model.

The driver has four parts, and the model keeps them:

- **Frames.** A read request is `[code & 0xFF, 0]`. A write request is
  `[code & 0xFF, 0, low, high]`. Output off and on are the 3-byte frames
  `[0, 0, 0]` and `[0, 0, 1]`. Every frame goes to the extended identifier
  `0xC0103`.
- **Replies.** A read reply gives `data[2] + 256 * data[3]`. The probe
  (`bus_ok`) accepts a reply whose first byte is 0 or 1. The charge-status word
  is split into a low and a high byte, and each flag tests one bit.
- **Inputs.** Voltage setters clamp anything above 56 V to raw 5600. Otherwise
  they write `int(value * 100)`. The taper-current setter has a range guard
  that never fires.
- **Guarded writes.** Each setter sends output off, the register write, a
  50 ms pause, then output on. The restart-voltage setter first writes the
  control word 0x0884 to register 0xB4 and pauses.

Modules:

- `CanBus` (`can_bus.dfy`) stands in for python-can.
  - A `Bus` object holds the history of sent frames and pauses (`trace`).
  - Two oracle functions read that history. `sendRaises` says whether a `send`
    raises `can.CanError`. `recvAnswer` says what `recv` returns: a message,
    `None` (timeout) or `can.CanError`.
  - The history grows at every send, so the oracles can stand for any bus
    behaviour.
- `Protocol` (`protocol.dfy`) holds the pure parts: frame building, reply
  decoding, input conversion, status bits and the settings table.
- `Report` (`report.dfy`) specifies the `print_values` loop as a function of
  the bus oracles, and proves what it reports.
- `Charger` (`charger.dfy`) is the class `MeanWellCharger`. Each method states
  the exact events it appends to `bus.trace` and what it returns.
- `Scenarios` (`scenarios.dfy`) draws conclusions from the contracts for
  concrete buses and inputs.

Exceptions the driver does not catch are part of the model: `Outcome` is
either `Returned(v)` or `Raised(e)`.

- `AttributeError`: `recv` returned `None` and the code reads `resp.data`.
- `IndexError`: the reply has too few bytes.
- `ValueError`: a data item outside 0..255 reaches `can.Message`. This
  assumes python-can builds message data with `bytearray(data)`.

Behaviour of the code worth knowing:

- **Failed steps.** A failed step of a guarded write does not stop the
  sequence. `_set` catches `can.CanError` and only prints, so the on frame is
  still sent.
- **Truncation.** The raw value is `int(value * 100)`, which truncates toward
  zero.
- **Taper range.** The range guard of `set_taper_current` never holds, so every
  taper current is written (see Findings).
- **Missing or malformed replies.** A timeout or a short reply makes `bus_ok`
  and `_get_two_bytes` raise an uncaught exception. Of the failures, only
  `can.CanError` gives `False` or `None`. `bus_ok` also answers `False` to a
  reply whose first byte is neither 0 nor 1.
- **Wakeup flag.** "Wakeup finished" tests the same bit (`low & 0x04`) as
  "constant voltage".
- **Negative voltages.** A voltage at or below -0.01 V gives a negative raw
  value. The setter then switches the output off and raises `ValueError`
  before the write.

## Model

| member | source | states |
|---|---|---|
| Protocol.LowByte | mean_well_charger.py:151 | `code & 0xFF` is the one byte congruent to `code` modulo 256, and is `code` itself when `code` is already a byte |
| Protocol.ReadFrame | mean_well_charger.py:149-153 | the read request is the request with no payload, and the charger reads it as a read of the register `code & 0xFF` |
| Protocol.RequestData | mean_well_charger.py:171 | the code byte and the zero byte are always bytes, so the frame can be built exactly when every payload item is in 0..255 |
| Protocol.WordBytes | mean_well_charger.py:164-165 | `[value % 256, value // 256]` of a 16-bit value is two bytes whose low-first decoding is the value again |
| Protocol.Word | mean_well_charger.py:157 | two bytes decode to a 16-bit value whose `% 256` is the low byte and whose `// 256` is the high byte |
| Protocol.WriteFrame | mean_well_charger.py:163-171 | for a 16-bit value, the write frame is exactly what `_set_two_bytes` builds: length 4, code byte, zero byte, and a payload whose little-endian decoding (line 157) is the value again |
| Protocol.WordRequestFits | mean_well_charger.py:163-173 | the write frame of `_set_two_bytes` can be built if and only if `0 <= value < 65536` |
| Protocol.WordBytesOfWord | mean_well_charger.py:157 | two reply bytes decode to a 16-bit value, and splitting that value as line 164-165 does gives the two bytes back |
| Protocol.ParseFrames | mean_well_charger.py:149-153 | read request, write request, off, on and probe frames are read back as a read of the code, a word write of the value, a byte write of 0 or 1 to register 0, and a read of register 0 |
| Protocol.ReplyValue | mean_well_charger.py:154-161 | after a successful send: `None` exactly on `can.CanError` from `recv`, `AttributeError` exactly on no message, `IndexError` exactly on fewer than 4 bytes, and for every reply of 4 or more bytes exactly the value `data[2] + 256 * data[3]`, a 16-bit value |
| Protocol.ReadResult | mean_well_charger.py:147-161 | a read gives `None` if and only if `send` or `recv` raised `can.CanError`; an exception escapes if and only if the send succeeded and the reply is missing or shorter than 4 bytes; a reply of 4 or more bytes after a successful send gives `data[2] + 256 * data[3]` |
| Protocol.ProbeReply | mean_well_charger.py:20-27 | the probe says `True` exactly when the reply's first byte is 0 or 1, `False` exactly on `can.CanError` or another first byte, raises `AttributeError` exactly on no message and `IndexError` exactly on an empty reply |
| Protocol.Truncate | mean_well_charger.py:84 | `int()` truncates toward zero: the result is within 1 of the input and no farther from zero |
| Protocol.VoltageRaw | mean_well_charger.py:80-84 | the written raw value never exceeds 5600; above 56 V it is exactly 5600; for 0..56 V it is the input in hundredths, truncated; a negative input gives the input in hundredths truncated toward zero, so 0 above -0.01 V and a negative raw value at or below it |
| Protocol.TaperRaw | mean_well_charger.py:114 | the taper raw value is the input in hundredths, truncated toward zero: non-negative for non-negative input, 0 above -0.01 A, negative at or below it |
| Protocol.TaperGuardAsWritten | mean_well_charger.py:110 | the guard as written: the input above 7.5 and below 0.5 at once |
| Protocol.TaperGuardAdmitsOutOfRange | mean_well_charger.py:110-114 | no input satisfies `in_value > 7.5 and in_value < 0.5`; 8 A is written as 800 and 700 A gives a raw value that is not 16 bits |
| Protocol.TaperRawInRange | mean_well_charger.py:110-111 | with the guard its warning describes, every accepted taper current is written as raw 50..750 |
| Protocol.BitAnd | mean_well_charger.py:67-76 | Python's `&` on non-negative ints; the result is no larger than either operand |
| Protocol.Flag | mean_well_charger.py:67-76 | a flag `b & mask > 0` can be set only when both the byte and the mask are non-zero |
| Protocol.FlagTestsBit | mean_well_charger.py:67-76 | a flag test with the one-bit mask `2^k` (0x01, 0x02, 0x04, 0x08, 0x20, ...) is set exactly when bit k of the byte is set |
| Protocol.MaskTestsBit | mean_well_charger.py:67-76 | a test `v & 2^k > 0` holds exactly when bit k of `v` is set |
| Protocol.HighByteBit | mean_well_charger.py:64 | bit k of `value // 256` is bit k+8 of the word |
| Protocol.LowByteBit | mean_well_charger.py:63 | bits 0..7 of `value % 256` are bits 0..7 of the word |
| Protocol.BitBelowMultiple | mean_well_charger.py:63 | adding a multiple of 2^n leaves every bit below n unchanged, so taking `% 256` keeps the low eight bits |
| Protocol.BitAboveMultiple | mean_well_charger.py:64 | for x below 2^n, bit k+n of x + 2^n·q is bit k of q, so `// 256` moves bit k+8 to bit k |
| Protocol.DecodeStatus | mean_well_charger.py:59-76 | the flags are word bits 0 (fully charged), 1 (constant current), 2 (constant voltage), 3 (float), 10 (temperature compensation), 11 (battery detect), 13..15 (CC, CV and float timeouts); wakeup-finished always equals constant voltage |
| Protocol.SettingsTable | mean_well_charger.py:39-51 | the report reads 11 distinct registers, each code a byte and none of them the operation, configuration or charge-status register; each value is in hundredths except the ambient temperature (0x62), in tenths |
| Protocol.Scaled | mean_well_charger.py:56-57 | the scaled value times the register's divisor (100 or 10) is the raw value |
| Report.ReadAt | mean_well_charger.py:147-161 | a read gives `None` exactly when `send` raises `can.CanError` on the history before the request or `recv` raises it on the history after it; an exception escapes only when the send succeeded |
| Report.ReadAtOutcome | mean_well_charger.py:147-161 | at a given history: a read raises exactly when the send succeeded and the reply that follows the request is missing or short (`AttributeError` exactly for a missing one), and a reply of 4 or more bytes gives `data[2] + 256 * data[3]` |
| Report.SweepSettings | mean_well_charger.py:53-57 | the reference definition of the `print_values` loop: read the first setting, stop with the exception if one escapes, keep a reading only for a value, go on after the request; what it sends and reports is stated by SweepSendsInOrder, SweepReadingsInOrder, SweepReadingsSound and SweepReadingsComplete |
| Report.ReadEvents | mean_well_charger.py:53-54 | the read requests for a list of settings are one per setting, in order |
| Report.SweepAppend | mean_well_charger.py:53-57 | reading two lists one after the other gives the concatenated readings and events, when the first list raised nothing |
| Report.SweepAppendCons | mean_well_charger.py:53-57 | the inductive step of the same concatenation property, when the first setting of the first list was read without an exception |
| Report.SweepExtend | mean_well_charger.py:53-57 | one more loop step: an escaping exception ends the loop with the readings so far, otherwise the new reading is appended only when the read gave a value |
| Report.SweepSendsInOrder | mean_well_charger.py:53-54 | the loop sends one read request per setting in table order; it stops only at the first read that raises, and without one every setting is requested |
| Report.SweepSentPrefix | mean_well_charger.py:53-54 | what the loop sends is the read requests of a prefix of the table, the whole table when no exception ended it, and at least one request when one did |
| Report.SweepStopsAtRaise | mean_well_charger.py:53-54 | of the reads the loop made, exactly the last one raised, and only when the loop ended with that exception |
| Report.SweepReadingsInOrder | mean_well_charger.py:53-57 | the readings come out in table order: each is the value returned by a read the loop made of its setting, at strictly increasing table positions |
| Report.SweepReadingsSound | mean_well_charger.py:54-57 | every reported reading comes from a read the loop actually made of its setting, and that read returned that value |
| Report.SweepReadingsComplete | mean_well_charger.py:55-57 | every read that returned a value before the loop stopped is reported; only reads giving `None` are left out |
| Report.PrintedValues | mean_well_charger.py:53-57 | every line `print_values` reports belongs to an entry of its table, and the value printed is the raw value over that entry's divisor (`value * 0.01` or `value * 0.1`, exactly) |
| Charger.MeanWellCharger.constructor | mean_well_charger.py:11-13 | the charger keeps the given bus and the identifier 0xC0103 |
| Charger.MeanWellCharger.BusOk | mean_well_charger.py:15-27 | appends exactly the probe frame `[0, 0]`; returns `False` when `send` raises `can.CanError`, else the probe verdict on the reply |
| Charger.MeanWellCharger.SetOff | mean_well_charger.py:29-31 | appends exactly the frame `[0, 0, 0]` |
| Charger.MeanWellCharger.SetOn | mean_well_charger.py:33-35 | appends exactly the frame `[0, 0, 1]` |
| Charger.MeanWellCharger.PrintValues | mean_well_charger.py:37-57 | the readings and the ending exception are those of the loop over the 11-entry settings table, and the history grows by exactly the requests it sent |
| Charger.MeanWellCharger.ReadSettings | mean_well_charger.py:53-57 | the loop over a table with its invariant: readings so far equal the specified loop over the prefix read |
| Charger.MeanWellCharger.PrintChargeStatus | mean_well_charger.py:59-76 | appends one read of register 0xB8; returns the decoded flags of the value read, nothing on `None`, or the escaping exception |
| Charger.MeanWellCharger.GuardedWrite | mean_well_charger.py:86-91 | for a 16-bit raw value appends off, the write, a 50 ms pause, on (on is last) whatever the sends do; otherwise appends only off and raises `ValueError` |
| Charger.MeanWellCharger.SetVoltage | mean_well_charger.py:78-91 | for non-negative input, appends off, the write of the clamped value to 0xB1, pause, on; for negative raw, off then `ValueError` |
| Charger.MeanWellCharger.SetFloatVoltage | mean_well_charger.py:93-106 | the same sequence with target register 0xB2 |
| Charger.MeanWellCharger.SetTaperCurrent | mean_well_charger.py:108-121 | the guard never returns early: always sends off, and for a 16-bit raw value the write to 0xB3, pause, on; otherwise `ValueError` with the output left off |
| Charger.MeanWellCharger.SetTaperCurrentChecked | mean_well_charger.py:108-121 | with the intended guard: outside 0.5..7.5 A nothing is sent; inside, off, the write of raw 50..750, pause, on; never raises |
| Charger.MeanWellCharger.SetRestartVoltage | mean_well_charger.py:123-141 | appends exactly `[0xB4,0,0x84,0x08]`, pause, off, the write of the clamped value to 0xB9, pause, on; for negative raw it stops after off with `ValueError` |
| Charger.MeanWellCharger.GetTwoBytes | mean_well_charger.py:147-161 | appends exactly one read request `[code & 0xFF, 0]` and returns the read outcome for the history before it |
| Charger.MeanWellCharger.SetTwoBytes | mean_well_charger.py:163-166 | for a 16-bit value appends exactly the 4-byte write frame; otherwise sends nothing and raises `ValueError` |
| Charger.MeanWellCharger.Set | mean_well_charger.py:168-177 | when the frame can be built it is sent and the call returns normally even if `send` raised `can.CanError`; otherwise nothing is sent and `ValueError` escapes |
| Scenarios.StatusWordFive | mean_well_charger.py:72-76 | the status word 5 reads as fully charged and constant voltage, not constant current, no temperature compensation, no battery detected |
| Scenarios.StatusWordHighByte | mean_well_charger.py:63-76 | the status word 0x2405 reads as fully charged, constant voltage, temperature compensation and constant-current timeout, with the other high-byte flags clear |

## Left out

- Bus construction (`can.Bus(...)` with socketcan, line 12) and `shutdown`
  (lines 143-145) are foreign library calls. The bus is a constructor
  argument of the model.
- `time.sleep(0.05)` cannot be modelled as real time. Each sleep is recorded as
  a `Paused(50)` marker in the bus history, so only its position in the order
  is stated.
- All printed text is left out: the reports, the "CAN error" messages and the
  clamp warnings. `print_values` returns its readings and `print_charge_status`
  returns its flags instead of printing them.
- The `recv` timeout of one second is left to the oracle, which decides when
  nothing arrives.
- Replies are modelled by their data bytes only. The driver never looks at a
  reply's identifier.
- python-can is not part of this model. The model assumes that `can.Message`
  raises `ValueError` for a data item outside 0..255; `Protocol.ToBytes` is
  that assumption.
- `cli.py` is not part of this model. It only constructs the driver and calls
  the print methods.
- Protocol.Truncate: works on exact reals, so Python's float rounding of
  `in_value * 100` is not reproduced. For example Python computes
  `int(0.29 * 100)` as 28, and the model gives 29.
- Protocol.VoltageRaw: its hundredths come from the exact product, so it
  inherits the float difference of `Truncate`.
- Protocol.TaperRaw: the same float difference as `Truncate`.
- Non-finite floats are left out, because exact reals have none. `set_voltage(nan)`
  raises `ValueError` from `int()` before `set_off`, an input of minus infinity
  raises `OverflowError`, and plus infinity is clamped to 5600.
- Protocol.Scaled: the scaled value is exact. Python multiplies by the floats
  0.01 or 0.1.

## Findings

| source | as written | input that shows it | evidently intended | confidence | as-written member | corrected member |
|---|---|---|---|---|---|---|
| mean_well_charger.py:110 | `if in_value > 7.5 and in_value < 0.5:` can never hold, so no taper current is rejected | `set_taper_current(8.0)` writes raw 800. `set_taper_current(700.0)` switches the output off, then `can.Message` raises `ValueError`, so the output stays off | reject inputs above 7.5 A or below 0.5 A with no change, as the warning on line 111 says (`or`, not `and`) | high, not executed | Charger.MeanWellCharger.SetTaperCurrent (exhibit: Protocol.TaperGuardAdmitsOutOfRange) | Charger.MeanWellCharger.SetTaperCurrentChecked (range proved by Protocol.TaperRawInRange) |

=== FILE: can_bus.dfy ===
/** The CAN bus the charger driver talks through.

    python-can's `Bus` is a foreign library, so it is modelled only by what the
    driver can observe of it: every `send` is recorded in a history, and an
    oracle decides, from the history so far, whether a `send` raises
    `can.CanError` and what a `recv` hands back.  Because the history grows by
    one entry at every `send`, each call sees a distinct history, so the oracle
    can stand for any sequence of bus behaviour.  The settle delays of the driver
    (`time.sleep`) are recorded in the same history as `Paused` markers, so that
    the order of frames and delays can be stated. */
module CanBus {

  /** A CAN data byte (python-can keeps message data in a `bytearray`). */
  type byte = x: int | 0 <= x < 256

  /** A CAN frame as handed to `Bus.send`. */
  datatype CanMessage = CanMessage(arbitrationId: int, isExtendedId: bool, data: seq<byte>)

  /** What `Bus.recv` does: return a message, return `None` because nothing
      arrived before the timeout, or raise `can.CanError`. */
  datatype Reply = Received(data: seq<byte>) | NoMessage | RecvError

  /** One entry of the observable history: a frame handed to `send` (whether or
      not `send` then raised), or a pause of the given number of milliseconds. */
  datatype Event = Sent(msg: CanMessage) | Paused(ms: nat)

  class Bus {
    /** Everything sent, and every pause, in order. */
    var trace: seq<Event>
    /** Does a `send` issued after this history raise `can.CanError`? */
    const sendRaises: seq<Event> -> bool
    /** What a `recv` issued after this history returns. */
    const recvAnswer: seq<Event> -> Reply

    constructor (sendRaises: seq<Event> -> bool, recvAnswer: seq<Event> -> Reply)
      ensures trace == []
      ensures this.sendRaises == sendRaises && this.recvAnswer == recvAnswer
    {
      trace := [];
      this.sendRaises := sendRaises;
      this.recvAnswer := recvAnswer;
    }

    /** `send(msg)`: the frame is recorded; `raised` tells whether it raised `can.CanError`. */
    method Send(msg: CanMessage) returns (raised: bool)
      modifies this
      ensures trace == old(trace) + [Sent(msg)]
      ensures raised == sendRaises(old(trace))
    {
      raised := sendRaises(trace);
      trace := trace + [Sent(msg)];
    }

    /** `recv(timeout)`: what arrives is the oracle's choice for the current history. */
    method Recv() returns (reply: Reply)
      ensures reply == recvAnswer(trace)
    {
      reply := recvAnswer(trace);
    }

    /** `time.sleep(ms / 1000)`, recorded as a marker in the history. */
    method Pause(ms: nat)
      modifies this
      ensures trace == old(trace) + [Paused(ms)]
    {
      trace := trace + [Paused(ms)];
    }
  }
}

=== FILE: charger.dfy ===
/** The `MeanWellCharger` class: each method talks to the charger through the
    bus it holds, and its contract states exactly which frames and pauses it
    appends to the bus history and what it returns. */
module Charger {
  import opened CanBus
  import opened Protocol
  import opened Report

  class MeanWellCharger {
    /** `self._bus` */
    const bus: Bus
    /** `self._id`: the extended identifier of the charger. */
    const id: int := ChargerId

    constructor (bus: Bus)
      ensures this.bus == bus && id == ChargerId
    {
      this.bus := bus;
    }

    /** `bus_ok`: sends the probe frame and reports whether the reply's first
        byte is 0 or 1; a `can.CanError` from `send` or `recv` gives `False`. */
    method BusOk() returns (r: Outcome<bool>)
      modifies bus
      ensures bus.trace == old(bus.trace) + [Sent(ToCharger(ProbeFrame))]
      ensures r == if bus.sendRaises(old(bus.trace)) then Returned(false)
                   else ProbeReply(bus.recvAnswer(bus.trace))
    {
      var raised := bus.Send(CanMessage(id, true, [0x00, 0x00]));
      if raised {
        return Returned(false);
      }
      var resp := bus.Recv();
      r := ProbeReply(resp);
    }

    /** `set_off`: the operation register written with 0. */
    method SetOff()
      modifies bus
      ensures bus.trace == old(bus.trace) + [Sent(ToCharger(OffFrame))]
    {
      assert RequestData(OperationCode, [0x00]) == OffFrame;
      var r := Set(OperationCode, [0x00]);
    }

    /** `set_on`: the operation register written with 1. */
    method SetOn()
      modifies bus
      ensures bus.trace == old(bus.trace) + [Sent(ToCharger(OnFrame))]
    {
      assert RequestData(OperationCode, [0x01]) == OnFrame;
      var r := Set(OperationCode, [0x01]);
    }

    /** `print_values`: the readings it prints and the exception that ends it,
        if any; each line printed shows `Scaled(raw, setting.divisor)`
        (`Report.PrintedValues`). */
    method PrintValues() returns (readings: seq<Reading>, raised: Option<PyError>)
      modifies bus
      ensures var s := SweepSettings(bus.sendRaises, bus.recvAnswer, old(bus.trace), Settings);
        readings == s.readings && raised == s.raised && bus.trace == old(bus.trace) + s.sent
    {
      readings, raised := ReadSettings(Settings);
    }

    /** The loop of `print_values` over a settings table. */
    method ReadSettings(settings: seq<Setting>) returns (readings: seq<Reading>, raised: Option<PyError>)
      modifies bus
      ensures var s := SweepSettings(bus.sendRaises, bus.recvAnswer, old(bus.trace), settings);
        readings == s.readings && raised == s.raised && bus.trace == old(bus.trace) + s.sent
    {
      readings, raised := [], None;
      ghost var t0 := bus.trace;
      assert settings[..0] == [];
      for i := 0 to |settings|
        invariant LoopState(bus.sendRaises, bus.recvAnswer, t0, settings, i, readings, bus.trace)
      {
        ghost var before := bus.trace;
        var value := GetTwoBytes(settings[i].code);
        match value
        case Raised(e) =>
          LoopStepRaised(bus.sendRaises, bus.recvAnswer, t0, settings, i, readings, before, e);
          raised := Some(e);
          return;
        case Returned(v) =>
          LoopStepReturned(bus.sendRaises, bus.recvAnswer, t0, settings, i, readings, before, v);
          if v.Some? {
            readings := readings + [Reading(settings[i], v.value)];
          }
      }
      LoopDone(bus.sendRaises, bus.recvAnswer, t0, settings, readings, bus.trace);
    }

    /** `print_charge_status`: reads the charge-status register and decodes it;
        prints nothing when the read gives `None`. */
    method PrintChargeStatus() returns (r: Outcome<Option<ChargeStatus>>)
      modifies bus
      ensures bus.trace == old(bus.trace) + [ReadEvent(ChargeStatusCode)]
      ensures match ReadAt(bus.sendRaises, bus.recvAnswer, old(bus.trace), ChargeStatusCode)
        case Raised(e) => r == Raised(e)
        case Returned(None) => r == Returned(None)
        case Returned(Some(v)) => v < 65536 && r == Returned(Some(DecodeStatus(v)))
    {
      var value := GetTwoBytes(ChargeStatusCode);
      match value
      case Raised(e) =>
        r := Raised(e);
      case Returned(None) =>
        r := Returned(None);
      case Returned(Some(v)) =>
        r := Returned(Some(DecodeStatus(v)));
    }

    /** The steps every setter takes once it has its raw value: output off,
        the register write, the settle delay, output on.  A `can.CanError` in
        any send is swallowed, so it never stops the sequence; a raw value that
        is not 16 bits makes `can.Message` raise `ValueError` after the output
        was switched off, and nothing more is sent. */
    method GuardedWrite(code: int, raw: int) returns (r: Outcome<()>)
      modifies bus
      ensures 0 <= raw < 65536 ==>
        r == Returned(()) &&
        bus.trace == old(bus.trace) + [Sent(ToCharger(OffFrame)), Sent(ToCharger(WriteFrame(code, raw))),
                                       Paused(SettleMs), Sent(ToCharger(OnFrame))]
      ensures !(0 <= raw < 65536) ==>
        r == Raised(ValueError) && bus.trace == old(bus.trace) + [Sent(ToCharger(OffFrame))]
    {
      SetOff();
      r := SetTwoBytes(code, raw);
      if r.Raised? {
        return;
      }
      bus.Pause(SettleMs);
      SetOn();
    }

    /** `set_voltage`: the absorption voltage (register 0xB1), clamped to 56 V. */
    method SetVoltage(volts: real) returns (r: Outcome<()>)
      modifies bus
      ensures var raw := VoltageRaw(volts);
        if 0 <= raw then
          r == Returned(()) &&
          bus.trace == old(bus.trace) + [Sent(ToCharger(OffFrame)), Sent(ToCharger(WriteFrame(CurveCvCode, raw))),
                                         Paused(SettleMs), Sent(ToCharger(OnFrame))]
        else
          r == Raised(ValueError) && bus.trace == old(bus.trace) + [Sent(ToCharger(OffFrame))]
    {
      var value := VoltageRaw(volts);
      r := GuardedWrite(CurveCvCode, value);
    }

    /** `set_float_voltage`: the float voltage (register 0xB2), clamped to 56 V. */
    method SetFloatVoltage(volts: real) returns (r: Outcome<()>)
      modifies bus
      ensures var raw := VoltageRaw(volts);
        if 0 <= raw then
          r == Returned(()) &&
          bus.trace == old(bus.trace) + [Sent(ToCharger(OffFrame)), Sent(ToCharger(WriteFrame(CurveFvCode, raw))),
                                         Paused(SettleMs), Sent(ToCharger(OnFrame))]
        else
          r == Raised(ValueError) && bus.trace == old(bus.trace) + [Sent(ToCharger(OffFrame))]
    {
      var value := VoltageRaw(volts);
      r := GuardedWrite(CurveFvCode, value);
    }

    /** `set_taper_current` as written: its range guard can never hold, so it
        always switches the output off and writes the input in hundredths of an
        ampere (register 0xB3); when that raw value is not 16 bits it raises
        `ValueError` after output off and writes nothing. */
    method SetTaperCurrent(amps: real) returns (r: Outcome<()>)
      modifies bus
      ensures var raw := TaperRaw(amps);
        if 0 <= raw < 65536 then
          r == Returned(()) &&
          bus.trace == old(bus.trace) + [Sent(ToCharger(OffFrame)), Sent(ToCharger(WriteFrame(CurveTcCode, raw))),
                                         Paused(SettleMs), Sent(ToCharger(OnFrame))]
        else
          r == Raised(ValueError) && bus.trace == old(bus.trace) + [Sent(ToCharger(OffFrame))]
    {
      if TaperGuardAsWritten(amps) {
        // No number is above 7.5 and below 0.5: the early return is dead code.
        assert false;
      }
      var value := TaperRaw(amps);
      r := GuardedWrite(CurveTcCode, value);
    }

    /** `set_taper_current` with the guard its warning describes: an input
        outside 0.5..7.5 A changes nothing, and any other input is written as
        raw 50..750 with the output switched back on. */
    method SetTaperCurrentChecked(amps: real) returns (r: Outcome<()>)
      modifies bus
      ensures r == Returned(())
      ensures TaperOutOfRange(amps) ==> bus.trace == old(bus.trace)
      ensures !TaperOutOfRange(amps) ==>
        50 <= TaperRaw(amps) <= 750 &&
        bus.trace == old(bus.trace) + [Sent(ToCharger(OffFrame)), Sent(ToCharger(WriteFrame(CurveTcCode, TaperRaw(amps)))),
                                       Paused(SettleMs), Sent(ToCharger(OnFrame))]
    {
      if TaperOutOfRange(amps) {
        return Returned(());
      }
      var value := TaperRaw(amps);
      TaperRawInRange(amps);
      r := GuardedWrite(CurveTcCode, value);
    }

    /** `set_restart_voltage`: first enables restart (control word 0x0884 in
        register 0xB4) and waits, then writes the restart voltage (register
        0xB9), clamped to 56 V, in the guarded sequence. */
    method SetRestartVoltage(volts: real) returns (r: Outcome<()>)
      modifies bus
      ensures var raw := VoltageRaw(volts);
        var enable := [Sent(ToCharger([0xB4, 0x00, 0x84, 0x08])), Paused(SettleMs)];
        if 0 <= raw then
          r == Returned(()) &&
          bus.trace == old(bus.trace) + enable + [Sent(ToCharger(OffFrame)), Sent(ToCharger(WriteFrame(ChgRstVbatCode, raw))),
                                                  Paused(SettleMs), Sent(ToCharger(OnFrame))]
        else
          r == Raised(ValueError) && bus.trace == old(bus.trace) + enable + [Sent(ToCharger(OffFrame))]
    {
      var value := VoltageRaw(volts);
      ghost var t0 := bus.trace;
      var enabled := SetTwoBytes(CurveConfigCode, RestartEnableWord);
      assert WriteFrame(CurveConfigCode, RestartEnableWord) == [0xB4, 0x00, 0x84, 0x08];
      bus.Pause(SettleMs);
      assert bus.trace == t0 + [Sent(ToCharger([0xB4, 0x00, 0x84, 0x08])), Paused(SettleMs)];
      r := GuardedWrite(ChgRstVbatCode, value);
    }

    /** `_get_two_bytes`: one read request; the value of the reply, `None` on a
        `can.CanError` from `send` or `recv`, or an escaping exception. */
    method GetTwoBytes(code: int) returns (r: Outcome<Option<nat>>)
      modifies bus
      ensures bus.trace == old(bus.trace) + [ReadEvent(code)]
      ensures r == ReadAt(bus.sendRaises, bus.recvAnswer, old(bus.trace), code)
    {
      var raised := bus.Send(CanMessage(id, true, [LowByte(code), 0]));
      if raised {
        return Returned(None);
      }
      var resp := bus.Recv();
      r := ReplyValue(resp);
    }

    /** `_set_two_bytes`: writes a value low byte first; only a 16-bit value
        can be put in a frame. */
    method SetTwoBytes(code: int, value: int) returns (r: Outcome<()>)
      modifies bus
      ensures 0 <= value < 65536 ==>
        r == Returned(()) && bus.trace == old(bus.trace) + [Sent(ToCharger(WriteFrame(code, value)))]
      ensures !(0 <= value < 65536) ==>
        r == Raised(ValueError) && bus.trace == old(bus.trace)
    {
      var high := value / 256;
      var low := value % 256;
      WordRequestFits(code, value);
      r := Set(code, [low, high]);
    }

    /** `_set`: builds the frame (which raises `ValueError` for a data item
        that is not a byte) and sends it; a `can.CanError` is caught and only printed. */
    method Set(code: int, data: seq<int>) returns (r: Outcome<()>)
      modifies bus
      ensures ToBytes(RequestData(code, data)).Some? ==>
        r == Returned(()) &&
        bus.trace == old(bus.trace) + [Sent(ToCharger(ToBytes(RequestData(code, data)).value))]
      ensures ToBytes(RequestData(code, data)).None? ==>
        r == Raised(ValueError) && bus.trace == old(bus.trace)
    {
      var bytes := ToBytes(RequestData(code, data));
      if bytes.None? {
        return Raised(ValueError);
      }
      var raised := bus.Send(CanMessage(id, true, bytes.value));
      r := Returned(());
    }
  }
}

=== FILE: protocol.dfy ===
/** The register protocol of the Mean Well NPB charger driver, as pure
    functions: how request frames are built, how replies are decoded, how
    setter inputs become raw register values, and how the charge-status word
    is split into flags. */
module Protocol {
  import opened CanBus

  datatype Option<+T> = None | Some(value: T)

  /** The Python exceptions that can escape from the driver. */
  datatype PyError =
    | AttributeError  // `resp.data` when `recv` returned `None`
    | IndexError      // a reply with too few data bytes
    | ValueError      // `can.Message` given a data item outside 0..255

  /** How a Python call ends: it returns a value or an exception escapes. */
  datatype Outcome<+T> = Returned(value: T) | Raised(error: PyError)

  /** The extended CAN identifier every request is sent to. */
  const ChargerId: int := 0xC0103

  // Register (command) codes
  const OperationCode: int := 0x00
  const CurveCcCode: int := 0xB0
  const CurveCvCode: int := 0xB1
  const CurveFvCode: int := 0xB2
  const CurveTcCode: int := 0xB3
  const CurveConfigCode: int := 0xB4
  const CurveCcTimeoutCode: int := 0xB5
  const CurveCvTimeoutCode: int := 0xB6
  const CurveFvTimeoutCode: int := 0xB7
  const ChargeStatusCode: int := 0xB8
  const ChgRstVbatCode: int := 0xB9
  const ReadVoutCode: int := 0x60
  const ReadIoutCode: int := 0x61
  const AmbientTempCode: int := 0x62

  /** The control word written before the restart voltage, to enable restart. */
  const RestartEnableWord: int := 0x0884
  /** Voltage setters never go above 56 V, that is raw 5600 (hundredths of a volt). */
  const MaxVoltage: real := 56.0
  const MaxVoltageRaw: int := 5600
  /** The settle delay between steps of a guarded write, in milliseconds. */
  const SettleMs: nat := 50

  /** Output switching frames: the operation register written with one byte. */
  const OffFrame: seq<byte> := [0x00, 0x00, 0x00]
  const OnFrame: seq<byte> := [0x00, 0x00, 0x01]
  /** The probe frame of `bus_ok`. */
  const ProbeFrame: seq<byte> := [0x00, 0x00]

  /** A frame addressed to the charger. */
  function ToCharger(data: seq<byte>): CanMessage
  {
    CanMessage(ChargerId, true, data)
  }

  /** Python's `x & 0xFF` on an int of any sign. */
  function LowByte(x: int): (b: byte)
    ensures (x - b) % 256 == 0
    ensures 0 <= x < 256 ==> b == x
  {
    x % 256
  }

  /** `bytearray(data)`, as `can.Message` applies it to its data: it raises
      `ValueError` (here `None`) unless every item is a byte. */
  function ToBytes(data: seq<int>): Option<seq<byte>>
  {
    if forall i :: 0 <= i < |data| ==> 0 <= data[i] < 256 then Some(data) else None
  }

  // ---------------------------------------------------------------------------
  // Request frames

  /** The data list `_set` builds: the command code's low byte, a zero byte,
      then the payload. */
  function RequestData(code: int, payload: seq<int>): (d: seq<int>)
    ensures ToBytes(d).Some? <==> forall i :: 0 <= i < |payload| ==> 0 <= payload[i] < 256
  {
    assert forall i :: 0 <= i < |payload| ==> ([LowByte(code), 0] + payload)[i + 2] == payload[i];
    [LowByte(code), 0] + payload
  }

  /** The data of a `_get_two_bytes` read request: a request with no payload,
      which the charger reads as a read of the code's register. */
  function ReadFrame(code: int): (f: seq<byte>)
    ensures ToBytes(RequestData(code, [])) == Some(f)
    ensures ParseRequest(f) == Some(ReadRequest(LowByte(code)))
  {
    assert RequestData(code, []) == [LowByte(code), 0];
    [LowByte(code), 0]
  }

  /** `_set_two_bytes` splits a value into `[value % 256, value // 256]`;
      for a positive divisor Dafny's `/` and `%` agree with Python's `//` and `%`. */
  function WordBytes(value: int): (w: seq<int>)
    ensures |w| == 2
    ensures 0 <= value < 65536 ==> 0 <= w[0] < 256 && 0 <= w[1] < 256 && Word(w[0], w[1]) == value
  {
    [value % 256, value / 256]
  }

  /** How a reply's bytes 2 and 3 are read: low byte first. */
  function Word(low: int, high: int): (w: int)
    ensures 0 <= low < 256 && 0 <= high < 256 ==> 0 <= w < 65536 && w % 256 == low && w / 256 == high
  {
    low + 256 * high
  }

  /** The 4-byte write request for a 16-bit value: decoding its payload gives the value back. */
  function WriteFrame(code: int, value: int): (f: seq<byte>)
    requires 0 <= value < 65536
    ensures ToBytes(RequestData(code, WordBytes(value))) == Some(f)
    ensures |f| == 4 && f[0] == LowByte(code) && f[1] == 0
    ensures Word(f[2], f[3]) == value
  {
    assert RequestData(code, WordBytes(value)) == [LowByte(code), 0, value % 256, value / 256];
    [LowByte(code), 0, value % 256, value / 256]
  }

  /** The write request of `_set_two_bytes` can be built exactly when the value is a 16-bit unsigned value. */
  lemma WordRequestFits(code: int, value: int)
    ensures ToBytes(RequestData(code, WordBytes(value))).Some? <==> 0 <= value < 65536
  {
    var d := RequestData(code, WordBytes(value));
    assert d[2] == value % 256 && d[3] == value / 256;
  }

  /** Splitting is the inverse of `Word` on bytes. */
  lemma WordBytesOfWord(low: byte, high: byte)
    ensures 0 <= Word(low, high) < 65536
    ensures WordBytes(Word(low, high)) == [low, high]
  {
  }

  /** A request as the charger reads it (the wire format): the command code,
      a zero byte, and a payload of no byte (read), one byte or two bytes low first. */
  datatype Request = ReadRequest(code: byte) | ByteWrite(code: byte, b: byte) | WordWrite(code: byte, value: int)

  function ParseRequest(f: seq<byte>): Option<Request>
  {
    if |f| < 2 || f[1] != 0 then None
    else if |f| == 2 then Some(ReadRequest(f[0]))
    else if |f| == 3 then Some(ByteWrite(f[0], f[2]))
    else if |f| == 4 then Some(WordWrite(f[0], Word(f[2], f[3])))
    else None
  }

  /** The frames the driver builds are read by the charger as what the driver means. */
  lemma ParseFrames(code: int, value: int)
    requires 0 <= value < 65536
    ensures ParseRequest(ReadFrame(code)) == Some(ReadRequest(LowByte(code)))
    ensures ParseRequest(WriteFrame(code, value)) == Some(WordWrite(LowByte(code), value))
    ensures ParseRequest(OffFrame) == Some(ByteWrite(OperationCode, 0))
    ensures ParseRequest(OnFrame) == Some(ByteWrite(OperationCode, 1))
    ensures ParseRequest(ProbeFrame) == Some(ReadRequest(OperationCode))
  {
  }

  // ---------------------------------------------------------------------------
  // Reply decoding

  /** `_get_two_bytes` after a successful send: the reply's bytes 2 and 3, low
      first; `None` on `can.CanError`; an escaping exception on a missing or short reply. */
  function ReplyValue(reply: Reply): (r: Outcome<Option<nat>>)
    ensures r == Returned(None) <==> reply == RecvError
    ensures r == Raised(AttributeError) <==> reply == NoMessage
    ensures r == Raised(IndexError) <==> reply.Received? && |reply.data| < 4
    ensures r.Returned? && r.value.Some? ==>
      reply.Received? && |reply.data| >= 4 && r.value.value < 65536 &&
      WordBytes(r.value.value) == reply.data[2..4]
    ensures reply.Received? && |reply.data| >= 4 ==> r == Returned(Some(Word(reply.data[2], reply.data[3])))
  {
    match reply
    case RecvError => Returned(None)
    case NoMessage => Raised(AttributeError)
    case Received(data) =>
      if |data| < 4 then Raised(IndexError)
      else
        WordBytesOfWord(data[2], data[3]);
        Returned(Some(Word(data[2], data[3])))
  }

  /** The whole read: a `send` that raises `can.CanError` also gives `None`,
      and then nothing is received.  `None` comes from a CAN error and nothing else. */
  function ReadResult(sendRaised: bool, reply: Reply): (r: Outcome<Option<nat>>)
    ensures r == Returned(None) <==> sendRaised || reply == RecvError
    ensures r.Raised? <==> !sendRaised && (reply == NoMessage || (reply.Received? && |reply.data| < 4))
    ensures !sendRaised && reply.Received? && |reply.data| >= 4 ==> r == Returned(Some(Word(reply.data[2], reply.data[3])))
  {
    if sendRaised then Returned(None) else ReplyValue(reply)
  }

  /** `bus_ok` after a successful send: the charger is there when the reply's
      first byte is 0 or 1. */
  function ProbeReply(reply: Reply): (r: Outcome<bool>)
    ensures r == Returned(true) <==> reply.Received? && |reply.data| > 0 && reply.data[0] <= 1
    ensures r == Returned(false) <==> reply == RecvError || (reply.Received? && |reply.data| > 0 && reply.data[0] > 1)
    ensures r.Raised? <==> reply == NoMessage || reply == Received([])
    ensures r == Raised(AttributeError) <==> reply == NoMessage
    ensures r == Raised(IndexError) <==> reply == Received([])
  {
    match reply
    case RecvError => Returned(false)
    case NoMessage => Raised(AttributeError)
    case Received(data) =>
      if |data| == 0 then Raised(IndexError)
      else Returned(data[0] == 0 || data[0] == 1)
  }

  // ---------------------------------------------------------------------------
  // Input conversion

  /** Python's `int(x)` on a float: truncation toward zero. */
  function Truncate(x: real): (n: int)
    ensures 0.0 <= x ==> 0 <= n && n as real <= x < n as real + 1.0
    ensures x < 0.0 ==> n <= 0 && n as real - 1.0 < x <= n as real
  {
    if x >= 0.0 then x.Floor else -((-x).Floor)
  }

  /** The raw value a voltage setter writes: above 56 V it is clamped to 5600,
      otherwise it is the input in hundredths of a volt, truncated. */
  function VoltageRaw(volts: real): (raw: int)
    ensures raw <= MaxVoltageRaw
    ensures volts > MaxVoltage ==> raw == MaxVoltageRaw
    ensures 0.0 <= volts ==> 0 <= raw
    ensures 0.0 <= volts <= MaxVoltage ==> raw as real <= volts * 100.0 < raw as real + 1.0
    ensures volts <= -0.01 ==> raw < 0
    ensures volts < 0.0 ==> raw <= 0 && raw as real - 1.0 < volts * 100.0 <= raw as real
  {
    if volts > MaxVoltage then MaxVoltageRaw else Truncate(volts * 100.0)
  }

  /** The raw value `set_taper_current` writes: the input in hundredths of an ampere, truncated. */
  function TaperRaw(amps: real): (raw: int)
    ensures 0.0 <= amps ==> 0 <= raw && raw as real <= amps * 100.0 < raw as real + 1.0
    ensures amps <= -0.01 ==> raw < 0
    ensures amps < 0.0 ==> raw <= 0 && raw as real - 1.0 < amps * 100.0 <= raw as real
  {
    Truncate(amps * 100.0)
  }

  /** The range guard of `set_taper_current` as written. */
  predicate TaperGuardAsWritten(amps: real)
  {
    amps > 7.5 && amps < 0.5
  }

  /** The range guard its warning describes: reject above 7.5 A or below 0.5 A. */
  predicate TaperOutOfRange(amps: real)
  {
    amps > 7.5 || amps < 0.5
  }

  /** The guard as written never fires, so out-of-range inputs reach the charger:
      8 A is written as raw 800, and 700 A gives a raw value that is not 16 bits. */
  lemma TaperGuardAdmitsOutOfRange()
    ensures forall amps: real :: !TaperGuardAsWritten(amps)
    ensures TaperOutOfRange(8.0) && TaperRaw(8.0) == 800
    ensures TaperOutOfRange(700.0) && TaperRaw(700.0) >= 65536
  {
  }

  /** With the intended guard, every taper current that gets through is written as raw 50..750. */
  lemma TaperRawInRange(amps: real)
    requires !TaperOutOfRange(amps)
    ensures 50 <= TaperRaw(amps) <= 750
  {
  }

  // ---------------------------------------------------------------------------
  // Charge-status bits

  /** Python's `a & b` on non-negative ints. */
  function BitAnd(a: nat, b: nat): (r: nat)
    ensures r <= a && r <= b
    decreases a
  {
    if a == 0 || b == 0 then 0
    else
      assert (a % 2) * (b % 2) <= a % 2 && (a % 2) * (b % 2) <= b % 2;
      2 * BitAnd(a / 2, b / 2) + (a % 2) * (b % 2)
  }

  function Pow2(k: nat): (p: nat)
    ensures p >= 1
  {
    if k == 0 then 1 else 2 * Pow2(k - 1)
  }

  /** Bit `k` of `v`, counting from the least significant bit 0. */
  predicate Bit(v: nat, k: nat)
  {
    if k == 0 then v % 2 == 1 else Bit(v / 2, k - 1)
  }

  /** A test `v & mask > 0` with a one-bit mask is a test of that bit. */
  lemma {:induction false} MaskTestsBit(v: nat, k: nat)
    ensures (BitAnd(v, Pow2(k)) > 0) == Bit(v, k)
  {
    if k == 0 {
      if v != 0 {
        assert BitAnd(v / 2, 0) == 0;
      }
    } else {
      var m := Pow2(k);
      assert m % 2 == 0 && m / 2 == Pow2(k - 1);
      if v != 0 {
        assert BitAnd(v, m) == 2 * BitAnd(v / 2, m / 2) + (v % 2) * (m % 2);
      }
      assert BitAnd(v, m) == 2 * BitAnd(v / 2, Pow2(k - 1));
      assert Bit(v, k) == Bit(v / 2, k - 1);
      MaskTestsBit(v / 2, k - 1);
    }
  }

  /** Adding a multiple of `2^n` leaves the bits below `n` as they were. */
  lemma {:induction false} BitBelowMultiple(x: nat, q: nat, n: nat, k: nat)
    requires k < n
    ensures Bit(x + Pow2(n) * q, k) == Bit(x, k)
  {
    var t := Pow2(n - 1) * q;
    assert Pow2(n) * q == 2 * t;
    if k > 0 {
      assert (x + 2 * t) / 2 == x / 2 + t;
      BitBelowMultiple(x / 2, q, n - 1, k - 1);
    }
  }

  /** Above the `n` bits of `x < 2^n`, the bits of `x + 2^n * q` are those of `q`. */
  lemma {:induction false} BitAboveMultiple(x: nat, q: nat, n: nat, k: nat)
    requires x < Pow2(n)
    ensures Bit(x + Pow2(n) * q, k + n) == Bit(q, k)
  {
    if n == 0 {
      assert x == 0;
    } else {
      var t := Pow2(n - 1) * q;
      assert Pow2(n) * q == 2 * t;
      assert (x + 2 * t) / 2 == x / 2 + t;
      assert Bit(x + 2 * t, k + n) == Bit(x / 2 + t, k + (n - 1));
      BitAboveMultiple(x / 2, q, n - 1, k);
    }
  }

  /** Bit `k` of the high byte is bit `k + 8` of the word. */
  lemma HighByteBit(v: nat, k: nat)
    ensures Bit(v / 256, k) == Bit(v, k + 8)
  {
    assert Pow2(8) == 256;
    assert v == v % 256 + Pow2(8) * (v / 256);
    BitAboveMultiple(v % 256, v / 256, 8, k);
  }

  /** Bit `k < 8` of the low byte is bit `k` of the word. */
  lemma LowByteBit(v: nat, k: nat)
    requires k < 8
    ensures Bit(v % 256, k) == Bit(v, k)
  {
    assert Pow2(8) == 256;
    assert v == v % 256 + Pow2(8) * (v / 256);
    BitBelowMultiple(v % 256, v / 256, 8, k);
  }

  /** A flag tested with a one-bit mask is the bit that mask selects. */
  lemma FlagTestsBit(b: nat, k: nat)
    ensures Flag(b, Pow2(k)) == Bit(b, k)
  {
    MaskTestsBit(b, k);
  }

  /** The flags `print_charge_status` reports. */
  datatype ChargeStatus = ChargeStatus(
    tempComp: bool, batDetect: bool,
    ccTimeout: bool, cvTimeout: bool, floatTimeout: bool,
    fullyCharged: bool, constantCurrent: bool, constantVoltage: bool, floatMode: bool,
    wakeupFinished: bool)

  /** `b & mask > 0` */
  predicate Flag(b: nat, mask: nat): (r: bool)
    ensures r ==> 0 < b && 0 < mask
  {
    BitAnd(b, mask) > 0
  }

  /** `print_charge_status` splits the word into `low = value % 256` and
      `high = value // 256` and tests one bit per flag.  In terms of the 16-bit
      word: the charge modes are bits 0..3, temperature compensation and battery
      detection bits 10 and 11, the three timeouts bits 13..15; "wakeup finished"
      tests the same bit as "constant voltage". */
  function DecodeStatus(value: nat): (s: ChargeStatus)
    ensures s.fullyCharged == Bit(value, 0)
    ensures s.constantCurrent == Bit(value, 1)
    ensures s.constantVoltage == Bit(value, 2)
    ensures s.floatMode == Bit(value, 3)
    ensures s.wakeupFinished == s.constantVoltage
    ensures s.tempComp == Bit(value, 10)
    ensures s.batDetect == Bit(value, 11)
    ensures s.ccTimeout == Bit(value, 13)
    ensures s.cvTimeout == Bit(value, 14)
    ensures s.floatTimeout == Bit(value, 15)
  {
    var low := value % 256;
    var high := value / 256;
    LowByteBit(value, 0); LowByteBit(value, 1); LowByteBit(value, 2); LowByteBit(value, 3);
    HighByteBit(value, 2); HighByteBit(value, 3); HighByteBit(value, 5); HighByteBit(value, 6); HighByteBit(value, 7);
    MaskTestsBit(low, 0); MaskTestsBit(low, 1); MaskTestsBit(low, 2); MaskTestsBit(low, 3);
    MaskTestsBit(high, 2); MaskTestsBit(high, 3); MaskTestsBit(high, 5); MaskTestsBit(high, 6); MaskTestsBit(high, 7);
    ChargeStatus(
      Flag(high, 0x4), Flag(high, 0x8),
      Flag(high, 0x20), Flag(high, 0x40), Flag(high, 0x80),
      Flag(low, 0x01), Flag(low, 0x02), Flag(low, 0x04), Flag(low, 0x08),
      Flag(low, 0x04))
  }

  // ---------------------------------------------------------------------------
  // The settings `print_values` reads

  /** A register of the report: its code, its name and its scale as a divisor
      (the driver multiplies by 0.01 or 0.1). */
  datatype Setting = Setting(code: int, name: string, divisor: nat)

  const Settings: seq<Setting> := [
    Setting(CurveCcCode, "CURVE_CC", 100),
    Setting(CurveCvCode, "CURVE_CV", 100),
    Setting(CurveFvCode, "CURVE_FV", 100),
    Setting(CurveTcCode, "CURVE_TC", 100),
    Setting(CurveCcTimeoutCode, "CURVE_CC_TIMEOUT", 100),
    Setting(CurveCvTimeoutCode, "CURVE_CV_TIMEOUT", 100),
    Setting(CurveFvTimeoutCode, "CURVE_FV_TIMEOUT", 100),
    Setting(ChgRstVbatCode, "CHG_RST_VBAT", 100),
    Setting(ReadVoutCode, "READ_VOUT", 100),
    Setting(ReadIoutCode, "READ_IOUT", 100),
    Setting(AmbientTempCode, "Ambient temp", 10)
  ]

  /** The report reads eleven distinct registers, each code a byte, none of
      them the operation, configuration or charge-status register; every value
      is in hundredths except the ambient temperature, which is in tenths. */
  lemma SettingsTable()
    ensures |Settings| == 11
    ensures forall i, j :: 0 <= i < j < |Settings| ==> Settings[i].code != Settings[j].code
    ensures forall i :: 0 <= i < |Settings| ==>
      0 <= Settings[i].code < 256 &&
      Settings[i].code != OperationCode && Settings[i].code != CurveConfigCode && Settings[i].code != ChargeStatusCode &&
      Settings[i].divisor == (if Settings[i].code == AmbientTempCode then 10 else 100)
  {
  }

  /** The physical value of a raw register value, exactly. */
  function Scaled(raw: nat, divisor: nat): (x: real)
    requires divisor > 0
    ensures x * divisor as real == raw as real
  {
    raw as real / divisor as real
  }
}

=== FILE: report.dfy ===
/** What `print_values` produces, as a function of the bus: it reads every
    register of the settings table in order, one request each, skips the ones
    whose read gives `None`, and stops at the first exception that escapes a read. */
module Report {
  import opened CanBus
  import opened Protocol

  /** One line of the report: a setting and the raw value read for it. */
  datatype Reading = Reading(setting: Setting, raw: nat)

  /** The result of reading a list of settings: the readings reported, the
      exception that ended the loop if any, and the events sent to the bus. */
  datatype Sweep = Sweep(readings: seq<Reading>, raised: Option<PyError>, sent: seq<Event>)

  /** The history entry of a read request. */
  function ReadEvent(code: int): Event
  {
    Sent(ToCharger(ReadFrame(code)))
  }

  /** The read requests for a list of settings, in order. */
  function ReadEvents(settings: seq<Setting>): (evs: seq<Event>)
    ensures |evs| == |settings|
    ensures forall j :: 0 <= j < |settings| ==> evs[j] == ReadEvent(settings[j].code)
  {
    if settings == [] then [] else [ReadEvent(settings[0].code)] + ReadEvents(settings[1..])
  }

  /** The outcome of `_get_two_bytes(code)` issued after history `before`: the
      send sees `before`, the reply is the one that follows the request. */
  function ReadAt(raises: seq<Event> -> bool, answer: seq<Event> -> Reply, before: seq<Event>, code: int): (r: Outcome<Option<nat>>)
    ensures r == Returned(None) <==> raises(before) || answer(before + [ReadEvent(code)]) == RecvError
    ensures r.Raised? ==> !raises(before) && answer(before + [ReadEvent(code)]) != RecvError
  {
    ReadResult(raises(before), answer(before + [ReadEvent(code)]))
  }

  /** The read outcome in full: `None` on a CAN error, an exception exactly on
      a missing or short reply after a successful send, else the reply's value. */
  lemma ReadAtOutcome(raises: seq<Event> -> bool, answer: seq<Event> -> Reply, before: seq<Event>, code: int)
    ensures var reply := answer(before + [ReadEvent(code)]);
      var r := ReadAt(raises, answer, before, code);
      && (r.Raised? <==> !raises(before) && (reply == NoMessage || (reply.Received? && |reply.data| < 4)))
      && (r == Raised(AttributeError) <==> !raises(before) && reply == NoMessage)
      && (!raises(before) && reply.Received? && |reply.data| >= 4 ==>
            r == Returned(Some(Word(reply.data[2], reply.data[3]))))
  {
  }

  /** The loop of `print_values` over `settings`, started after history `before`. */
  function SweepSettings(raises: seq<Event> -> bool, answer: seq<Event> -> Reply, before: seq<Event>, settings: seq<Setting>): (r: Sweep)
    decreases |settings|
  {
    if settings == [] then Sweep([], None, [])
    else
      var ev := ReadEvent(settings[0].code);
      match ReadAt(raises, answer, before, settings[0].code)
      case Raised(e) => Sweep([], Some(e), [ev])
      case Returned(v) =>
        var rest := SweepSettings(raises, answer, before + [ev], settings[1..]);
        var here := if v.Some? then [Reading(settings[0], v.value)] else [];
        Sweep(here + rest.readings, rest.raised, [ev] + rest.sent)
  }

  /** The outcome of the read of `settings[j]` when every earlier setting has been read. */
  function OutcomeAt(raises: seq<Event> -> bool, answer: seq<Event> -> Reply, before: seq<Event>, settings: seq<Setting>, j: nat): Outcome<Option<nat>>
    requires j < |settings|
  {
    ReadAt(raises, answer, before + ReadEvents(settings[..j]), settings[j].code)
  }

  lemma OutcomeAtFirst(raises: seq<Event> -> bool, answer: seq<Event> -> Reply, before: seq<Event>, settings: seq<Setting>)
    requires settings != []
    ensures OutcomeAt(raises, answer, before, settings, 0) == ReadAt(raises, answer, before, settings[0].code)
  {
    assert before + ReadEvents(settings[..0]) == before;
  }

  /** Reading the tail after the first request is reading the whole list one position later. */
  lemma OutcomeAtShift(raises: seq<Event> -> bool, answer: seq<Event> -> Reply, before: seq<Event>, settings: seq<Setting>, j: nat)
    requires j + 1 < |settings|
    ensures OutcomeAt(raises, answer, before, settings, j + 1)
         == OutcomeAt(raises, answer, before + [ReadEvent(settings[0].code)], settings[1..], j)
  {
    var ev := ReadEvent(settings[0].code);
    assert settings[..j + 1][1..] == settings[1..][..j];
    assert ReadEvents(settings[..j + 1]) == [ev] + ReadEvents(settings[1..][..j]);
    assert before + ReadEvents(settings[..j + 1]) == (before + [ev]) + ReadEvents(settings[1..][..j]);
  }

  /** One step of the loop: the first setting is read, and the rest is read after it. */
  lemma SweepStep(raises: seq<Event> -> bool, answer: seq<Event> -> Reply, before: seq<Event>, settings: seq<Setting>)
    requires settings != []
    ensures var ev := ReadEvent(settings[0].code);
      match ReadAt(raises, answer, before, settings[0].code)
      case Raised(e) => SweepSettings(raises, answer, before, settings) == Sweep([], Some(e), [ev])
      case Returned(v) =>
        var rest := SweepSettings(raises, answer, before + [ev], settings[1..]);
        SweepSettings(raises, answer, before, settings)
          == Sweep((if v.Some? then [Reading(settings[0], v.value)] else []) + rest.readings, rest.raised, [ev] + rest.sent)
  {
  }

  /** Reading `a + b` is reading `a`, then reading `b` after what `a` sent,
      as long as no exception ended the reading of `a`. */
  lemma {:induction false} SweepAppend(raises: seq<Event> -> bool, answer: seq<Event> -> Reply, before: seq<Event>, a: seq<Setting>, b: seq<Setting>)
    requires SweepSettings(raises, answer, before, a).raised.None?
    ensures var sa := SweepSettings(raises, answer, before, a);
      var sb := SweepSettings(raises, answer, before + sa.sent, b);
      SweepSettings(raises, answer, before, a + b) == Sweep(sa.readings + sb.readings, sb.raised, sa.sent + sb.sent)
    decreases |a|, 1
  {
    if a == [] {
      assert a + b == b;
      assert before + [] == before;
    } else {
      SweepStep(raises, answer, before, a);
      if ReadAt(raises, answer, before, a[0].code).Raised? {
        assert false;
      } else {
        SweepAppendCons(raises, answer, before, a, b);
      }
    }
  }

  /** The inductive step of `SweepAppend`: the first setting of `a` was read
      without an exception. */
  lemma {:induction false} SweepAppendCons(raises: seq<Event> -> bool, answer: seq<Event> -> Reply, before: seq<Event>, a: seq<Setting>, b: seq<Setting>)
    requires a != [] && ReadAt(raises, answer, before, a[0].code).Returned?
    requires SweepSettings(raises, answer, before, a).raised.None?
    ensures var sa := SweepSettings(raises, answer, before, a);
      var sb := SweepSettings(raises, answer, before + sa.sent, b);
      SweepSettings(raises, answer, before, a + b) == Sweep(sa.readings + sb.readings, sb.raised, sa.sent + sb.sent)
    decreases |a|, 0
  {
    var ab := a + b;
    assert ab[0] == a[0];
    assert ab[1..] == a[1..] + b;
    var ev := ReadEvent(a[0].code);
    SweepStep(raises, answer, before, a);
    SweepStep(raises, answer, before, ab);
    var sa := SweepSettings(raises, answer, before, a);
    var ra := SweepSettings(raises, answer, before + [ev], a[1..]);
    SweepAppend(raises, answer, before + [ev], a[1..], b);
    assert before + [ev] + ra.sent == before + sa.sent;
    var v := ReadAt(raises, answer, before, a[0].code).value;
    SweepConcat(ev, if v.Some? then [Reading(a[0], v.value)] else [], sa, ra,
                SweepSettings(raises, answer, before + sa.sent, b),
                SweepSettings(raises, answer, before + [ev], ab[1..]),
                SweepSettings(raises, answer, before, ab));
  }

  /** The bookkeeping of `SweepAppendCons`: consing one read onto a
      concatenation is concatenating after consing. */
  lemma SweepConcat(ev: Event, here: seq<Reading>, sa: Sweep, ra: Sweep, sb: Sweep, rab: Sweep, whole: Sweep)
    requires sa == Sweep(here + ra.readings, ra.raised, [ev] + ra.sent)
    requires rab == Sweep(ra.readings + sb.readings, sb.raised, ra.sent + sb.sent)
    requires whole == Sweep(here + rab.readings, rab.raised, [ev] + rab.sent)
    ensures whole == Sweep(sa.readings + sb.readings, sb.raised, sa.sent + sb.sent)
  {
    assert here + (ra.readings + sb.readings) == sa.readings + sb.readings;
    assert [ev] + (ra.sent + sb.sent) == sa.sent + sb.sent;
  }

  /** One more step of the loop: the reading of `settings[..i]` ended
      without an exception, and `settings[i]` is read next. */
  lemma SweepExtend(raises: seq<Event> -> bool, answer: seq<Event> -> Reply, before: seq<Event>, settings: seq<Setting>, i: nat, readings: seq<Reading>)
    requires i < |settings|
    requires SweepSettings(raises, answer, before, settings[..i]) == Sweep(readings, None, ReadEvents(settings[..i]))
    ensures ReadEvents(settings[..i + 1]) == ReadEvents(settings[..i]) + [ReadEvent(settings[i].code)]
    ensures match ReadAt(raises, answer, before + ReadEvents(settings[..i]), settings[i].code)
      case Raised(e) =>
        SweepSettings(raises, answer, before, settings) == Sweep(readings, Some(e), ReadEvents(settings[..i + 1]))
      case Returned(v) =>
        SweepSettings(raises, answer, before, settings[..i + 1])
          == Sweep(readings + (if v.Some? then [Reading(settings[i], v.value)] else []), None, ReadEvents(settings[..i + 1]))
  {
    var done := settings[..i];
    var ti := before + ReadEvents(done);
    var ev := ReadEvent(settings[i].code);
    assert settings[..i + 1] == done + [settings[i]];
    assert ReadEvents(settings[..i + 1]) == ReadEvents(done) + [ev];
    match ReadAt(raises, answer, ti, settings[i].code)
    case Raised(e) =>
      assert settings == done + settings[i..];
      assert SweepSettings(raises, answer, ti, settings[i..]) == Sweep([], Some(e), [ev]);
      SweepAppend(raises, answer, before, done, settings[i..]);
    case Returned(v) =>
      var tail := SweepSettings(raises, answer, ti + [ev], []);
      assert SweepSettings(raises, answer, ti, [settings[i]]).raised.None?;
      SweepAppend(raises, answer, before, done, [settings[i]]);
  }

  /** The state of the `print_values` loop after `i` settings: the bus history
      is the read requests so far, and no exception has ended the loop. */
  ghost predicate LoopState(raises: seq<Event> -> bool, answer: seq<Event> -> Reply, before: seq<Event>,
                            settings: seq<Setting>, i: nat, readings: seq<Reading>, trace: seq<Event>)
  {
    && i <= |settings|
    && trace == before + ReadEvents(settings[..i])
    && SweepSettings(raises, answer, before, settings[..i]) == Sweep(readings, None, ReadEvents(settings[..i]))
  }

  /** A read that returned: the loop goes on with the reading kept only for a value. */
  lemma LoopStepReturned(raises: seq<Event> -> bool, answer: seq<Event> -> Reply, before: seq<Event>,
                         settings: seq<Setting>, i: nat, readings: seq<Reading>, trace: seq<Event>, v: Option<nat>)
    requires i < |settings| && LoopState(raises, answer, before, settings, i, readings, trace)
    requires ReadAt(raises, answer, trace, settings[i].code) == Returned(v)
    ensures LoopState(raises, answer, before, settings, i + 1,
                      readings + (if v.Some? then [Reading(settings[i], v.value)] else []),
                      trace + [ReadEvent(settings[i].code)])
  {
    SweepExtend(raises, answer, before, settings, i, readings);
  }

  /** A read that raised: the loop ends with that exception after this request. */
  lemma LoopStepRaised(raises: seq<Event> -> bool, answer: seq<Event> -> Reply, before: seq<Event>,
                       settings: seq<Setting>, i: nat, readings: seq<Reading>, trace: seq<Event>, e: PyError)
    requires i < |settings| && LoopState(raises, answer, before, settings, i, readings, trace)
    requires ReadAt(raises, answer, trace, settings[i].code) == Raised(e)
    ensures var s := SweepSettings(raises, answer, before, settings);
      s.readings == readings && s.raised == Some(e) && trace + [ReadEvent(settings[i].code)] == before + s.sent
  {
    SweepExtend(raises, answer, before, settings, i, readings);
  }

  /** After the whole table without an exception, the loop's result is the sweep's. */
  lemma LoopDone(raises: seq<Event> -> bool, answer: seq<Event> -> Reply, before: seq<Event>,
                 settings: seq<Setting>, readings: seq<Reading>, trace: seq<Event>)
    requires LoopState(raises, answer, before, settings, |settings|, readings, trace)
    ensures var s := SweepSettings(raises, answer, before, settings);
      s.readings == readings && s.raised == None && trace == before + s.sent
  {
    assert settings[..|settings|] == settings;
  }

  /** The loop sends one read request per setting, in table order, and stops
      only at an exception: the last request sent is the one whose read raised,
      and without an exception every setting is requested. */
  lemma SweepSendsInOrder(raises: seq<Event> -> bool, answer: seq<Event> -> Reply, before: seq<Event>, settings: seq<Setting>)
    ensures var s := SweepSettings(raises, answer, before, settings);
      && |s.sent| <= |settings|
      && s.sent == ReadEvents(settings[..|s.sent|])
      && (s.raised.None? ==> |s.sent| == |settings|)
      && (forall j :: 0 <= j < |s.sent| ==>
            (OutcomeAt(raises, answer, before, settings, j).Raised? <==> s.raised.Some? && j == |s.sent| - 1))
      && (s.raised.Some? ==>
            |s.sent| > 0 && OutcomeAt(raises, answer, before, settings, |s.sent| - 1) == Raised(s.raised.value))
  {
    SweepSentPrefix(raises, answer, before, settings);
    SweepStopsAtRaise(raises, answer, before, settings);
  }

  /** What the loop sends is the read requests of a prefix of the table, all
      of it when no exception ended the loop. */
  lemma {:induction false} SweepSentPrefix(raises: seq<Event> -> bool, answer: seq<Event> -> Reply, before: seq<Event>, settings: seq<Setting>)
    ensures var s := SweepSettings(raises, answer, before, settings);
      && |s.sent| <= |settings|
      && s.sent == ReadEvents(settings[..|s.sent|])
      && (s.raised.None? ==> |s.sent| == |settings|)
      && (s.raised.Some? ==> |s.sent| > 0)
    decreases |settings|
  {
    var s := SweepSettings(raises, answer, before, settings);
    if settings != [] {
      var ev := ReadEvent(settings[0].code);
      SweepStep(raises, answer, before, settings);
      match ReadAt(raises, answer, before, settings[0].code)
      case Raised(e) =>
        assert s.sent == [ev] == ReadEvents(settings[..1]);
      case Returned(v) =>
        var rest := SweepSettings(raises, answer, before + [ev], settings[1..]);
        SweepSentPrefix(raises, answer, before + [ev], settings[1..]);
        assert settings[..|s.sent|][1..] == settings[1..][..|rest.sent|];
    }
  }

  /** Of the reads the loop made, exactly the last one raised, and only when
      the loop ended with that exception. */
  lemma {:induction false} SweepStopsAtRaise(raises: seq<Event> -> bool, answer: seq<Event> -> Reply, before: seq<Event>, settings: seq<Setting>)
    ensures var s := SweepSettings(raises, answer, before, settings);
      && (forall j :: 0 <= j < |s.sent| && j < |settings| ==>
            (OutcomeAt(raises, answer, before, settings, j).Raised? <==> s.raised.Some? && j == |s.sent| - 1))
      && (s.raised.Some? ==>
            0 < |s.sent| <= |settings| && OutcomeAt(raises, answer, before, settings, |s.sent| - 1) == Raised(s.raised.value))
    decreases |settings|
  {
    var s := SweepSettings(raises, answer, before, settings);
    if settings != [] {
      var ev := ReadEvent(settings[0].code);
      OutcomeAtFirst(raises, answer, before, settings);
      SweepStep(raises, answer, before, settings);
      match ReadAt(raises, answer, before, settings[0].code)
      case Raised(e) =>
      case Returned(v) =>
        var rest := SweepSettings(raises, answer, before + [ev], settings[1..]);
        assert s.raised == rest.raised && |s.sent| == |rest.sent| + 1;
        SweepStopsAtRaise(raises, answer, before + [ev], settings[1..]);
        forall j | 0 < j < |s.sent| && j < |settings|
          ensures OutcomeAt(raises, answer, before, settings, j)
               == OutcomeAt(raises, answer, before + [ev], settings[1..], j - 1)
        {
          OutcomeAtShift(raises, answer, before, settings, j - 1);
        }
    }
  }

  /** The readings come out in table order: reading `i` is the value read for
      setting `idx[i]`, a read the loop made, and the positions strictly increase. */
  lemma {:induction false} SweepReadingsInOrder(raises: seq<Event> -> bool, answer: seq<Event> -> Reply, before: seq<Event>, settings: seq<Setting>)
    ensures var s := SweepSettings(raises, answer, before, settings);
      exists idx: seq<nat> :: InTableOrder(raises, answer, before, settings, s, idx)
    decreases |settings|
  {
    var s := SweepSettings(raises, answer, before, settings);
    if settings == [] {
      assert InTableOrder(raises, answer, before, settings, s, []);
    } else {
      SweepStep(raises, answer, before, settings);
      match ReadAt(raises, answer, before, settings[0].code)
      case Raised(e) =>
        assert InTableOrder(raises, answer, before, settings, s, []);
      case Returned(v) =>
        var ev := ReadEvent(settings[0].code);
        var rest := SweepSettings(raises, answer, before + [ev], settings[1..]);
        SweepReadingsInOrder(raises, answer, before + [ev], settings[1..]);
        var idxR :| InTableOrder(raises, answer, before + [ev], settings[1..], rest, idxR);
        var t := Sweep(rest.readings, rest.raised, [ev] + rest.sent);
        var idx := InTableOrderShift(raises, answer, before, settings, rest, idxR);
        if v.Some? {
          InTableOrderFirst(raises, answer, before, settings, t, idx, v.value);
          assert s == Sweep([Reading(settings[0], v.value)] + t.readings, t.raised, t.sent);
          assert InTableOrder(raises, answer, before, settings, s, [0] + idx);
        } else {
          assert [] + rest.readings == rest.readings;
          assert s == t;
          assert InTableOrder(raises, answer, before, settings, s, idx);
        }
    }
  }

  /** The positions of the readings of the tail, one later, are positions in the whole table. */
  lemma InTableOrderShift(raises: seq<Event> -> bool, answer: seq<Event> -> Reply, before: seq<Event>, settings: seq<Setting>, rest: Sweep, idxR: seq<nat>)
    returns (idx: seq<nat>)
    requires settings != []
    requires InTableOrder(raises, answer, before + [ReadEvent(settings[0].code)], settings[1..], rest, idxR)
    ensures InTableOrder(raises, answer, before, settings, Sweep(rest.readings, rest.raised, [ReadEvent(settings[0].code)] + rest.sent), idx)
    ensures forall i :: 0 <= i < |idx| ==> 0 < idx[i]
  {
    idx := seq(|idxR|, i requires 0 <= i < |idxR| => idxR[i] + 1);
    forall i | 0 <= i < |idxR|
      ensures OutcomeAt(raises, answer, before, settings, idx[i]) == Returned(Some(rest.readings[i].raw))
    {
      OutcomeAtShift(raises, answer, before, settings, idxR[i]);
    }
  }

  /** A value read for the first setting goes in front, at position 0. */
  lemma InTableOrderFirst(raises: seq<Event> -> bool, answer: seq<Event> -> Reply, before: seq<Event>, settings: seq<Setting>, t: Sweep, idx: seq<nat>, raw: nat)
    requires settings != [] && |t.sent| > 0
    requires ReadAt(raises, answer, before, settings[0].code) == Returned(Some(raw))
    requires InTableOrder(raises, answer, before, settings, t, idx)
    requires forall i :: 0 <= i < |idx| ==> 0 < idx[i]
    ensures InTableOrder(raises, answer, before, settings, Sweep([Reading(settings[0], raw)] + t.readings, t.raised, t.sent), [0] + idx)
  {
    OutcomeAtFirst(raises, answer, before, settings);
  }

  /** `idx` places each reading of `s` at the position of the table it was read from. */
  ghost predicate InTableOrder(raises: seq<Event> -> bool, answer: seq<Event> -> Reply, before: seq<Event>, settings: seq<Setting>, s: Sweep, idx: seq<nat>)
  {
    && |idx| == |s.readings|
    && (forall i :: 0 <= i < |idx| ==>
          && idx[i] < |s.sent| && idx[i] < |settings|
          && s.readings[i].setting == settings[idx[i]]
          && OutcomeAt(raises, answer, before, settings, idx[i]) == Returned(Some(s.readings[i].raw)))
    && (forall i, k :: 0 <= i < k < |idx| ==> idx[i] < idx[k])
  }

  /** Every reading reported comes from a read the loop made of its setting,
      and that read returned the reported value. */
  lemma SweepReadingsSound(raises: seq<Event> -> bool, answer: seq<Event> -> Reply, before: seq<Event>, settings: seq<Setting>)
    ensures var s := SweepSettings(raises, answer, before, settings);
      forall r :: r in s.readings ==>
        exists j :: (0 <= j < |s.sent| && j < |settings| && settings[j] == r.setting &&
                     OutcomeAt(raises, answer, before, settings, j) == Returned(Some(r.raw)))
  {
    var s := SweepSettings(raises, answer, before, settings);
    SweepReadingsInOrder(raises, answer, before, settings);
    var idx :| InTableOrder(raises, answer, before, settings, s, idx);
    forall r | r in s.readings
      ensures exists j :: (0 <= j < |s.sent| && j < |settings| && settings[j] == r.setting &&
                           OutcomeAt(raises, answer, before, settings, j) == Returned(Some(r.raw)))
    {
      var i :| 0 <= i < |s.readings| && s.readings[i] == r;
      assert settings[idx[i]] == r.setting;
    }
  }

  /** Every read that returned a value before the loop stopped is reported:
      a failed read is left out, the rest are still reported. */
  lemma {:induction false} SweepReadingsComplete(raises: seq<Event> -> bool, answer: seq<Event> -> Reply, before: seq<Event>, settings: seq<Setting>)
    ensures var s := SweepSettings(raises, answer, before, settings);
      forall j ::
        (0 <= j < |s.sent| && j < |settings| &&
         OutcomeAt(raises, answer, before, settings, j).Returned? &&
         OutcomeAt(raises, answer, before, settings, j).value.Some?) ==>
        Reading(settings[j], OutcomeAt(raises, answer, before, settings, j).value.value) in s.readings
    decreases |settings|
  {
    var s := SweepSettings(raises, answer, before, settings);
    if settings != [] {
      var ev := ReadEvent(settings[0].code);
      OutcomeAtFirst(raises, answer, before, settings);
      match ReadAt(raises, answer, before, settings[0].code)
      case Raised(e) =>
      case Returned(v) =>
        var rest := SweepSettings(raises, answer, before + [ev], settings[1..]);
        SweepStep(raises, answer, before, settings);
        assert |s.sent| == |rest.sent| + 1;
        assert forall r :: r in rest.readings ==> r in s.readings;
        SweepReadingsComplete(raises, answer, before + [ev], settings[1..]);
        forall j | 0 < j < |s.sent| && j < |settings|
          ensures OutcomeAt(raises, answer, before, settings, j)
               == OutcomeAt(raises, answer, before + [ev], settings[1..], j - 1)
        {
          OutcomeAtShift(raises, answer, before, settings, j - 1);
        }
    }
  }

  /** Every line `print_values` reports is an entry of its table, and the value
      it prints is the raw value over that entry's divisor. */
  lemma PrintedValues(raises: seq<Event> -> bool, answer: seq<Event> -> Reply, before: seq<Event>)
    ensures forall r :: r in SweepSettings(raises, answer, before, Settings).readings ==>
      r.setting in Settings && r.setting.divisor > 0 &&
      Scaled(r.raw, r.setting.divisor) * r.setting.divisor as real == r.raw as real
  {
    SweepReadingsSound(raises, answer, before, Settings);
    SettingsTable();
  }
}

=== FILE: scenarios.dfy ===
/** What a caller of `MeanWellCharger` can conclude from the contracts alone,
    for concrete buses and inputs. */
module Scenarios {
  import opened CanBus
  import opened Protocol
  import opened Charger

  /** A bus on which every `send` and `recv` raises `can.CanError`: `bus_ok`
      answers `False`, and `set_voltage(60)` still sends all its frames, clamped
      to raw 5600 (0x15E0), and ends by switching the output on. */
  method EveryCallRaisesCanError()
  {
    var bus := new Bus((h: seq<Event>) => true, (h: seq<Event>) => RecvError);
    var charger := new MeanWellCharger(bus);
    var ok := charger.BusOk();
    assert ok == Returned(false);
    var r := charger.SetVoltage(60.0);
    assert r == Returned(());
    assert bus.trace == [Sent(ToCharger(ProbeFrame)),
                         Sent(ToCharger(OffFrame)), Sent(ToCharger([0xB1, 0x00, 0xE0, 0x15])),
                         Paused(50), Sent(ToCharger(OnFrame))];
  }

  /** `set_taper_current` as written lets 8 A through as raw 800 (0x0320), and
      for 700 A it switches the output off and raises `ValueError`, leaving the
      output off; with the intended guard both inputs change nothing. */
  method TaperCurrentOutOfRange()
  {
    var bus := new Bus((h: seq<Event>) => false, (h: seq<Event>) => NoMessage);
    var charger := new MeanWellCharger(bus);
    var r := charger.SetTaperCurrent(8.0);
    assert bus.trace == [Sent(ToCharger(OffFrame)), Sent(ToCharger([0xB3, 0x00, 0x20, 0x03])),
                         Paused(50), Sent(ToCharger(OnFrame))];
    r := charger.SetTaperCurrent(700.0);
    assert r == Raised(ValueError);
    assert bus.trace[|bus.trace| - 1] == Sent(ToCharger(OffFrame));
    var before := bus.trace;
    r := charger.SetTaperCurrentChecked(8.0);
    r := charger.SetTaperCurrentChecked(700.0);
    assert bus.trace == before;
  }

  /** `set_restart_voltage(49.6)` sends exactly: enable restart, pause, off,
      the restart voltage 4960 (0x1360), pause, on. */
  method RestartVoltage()
  {
    var bus := new Bus((h: seq<Event>) => false, (h: seq<Event>) => NoMessage);
    var charger := new MeanWellCharger(bus);
    var r := charger.SetRestartVoltage(49.6);
    assert bus.trace == [Sent(ToCharger([0xB4, 0x00, 0x84, 0x08])), Paused(50),
                         Sent(ToCharger(OffFrame)), Sent(ToCharger([0xB9, 0x00, 0x60, 0x13])),
                         Paused(50), Sent(ToCharger(OnFrame))];
  }

  /** A charge-status word of 5 (low byte 0x05, high byte 0): fully charged and
      constant voltage, not constant current, no temperature compensation and
      no battery detected. */
  lemma StatusWordFive()
    ensures var s := DecodeStatus(5);
      s.fullyCharged && s.constantVoltage && s.wakeupFinished && !s.constantCurrent &&
      !s.tempComp && !s.batDetect
  {
  }

  /** A charge-status word of 0x2405 (high byte 0x24, low byte 0x05): also
      temperature compensation and the constant-current timeout, but no
      battery detection and no constant-voltage or float timeout. */
  lemma StatusWordHighByte()
    ensures var s := DecodeStatus(0x2405);
      s.fullyCharged && s.constantVoltage && !s.constantCurrent && !s.floatMode &&
      s.tempComp && s.ccTimeout && !s.batDetect && !s.cvTimeout && !s.floatTimeout
  {
    var v := 0x2405;
    assert v / 256 == 0x24 && v % 256 == 5;
    HighByteBit(v, 2); HighByteBit(v, 3); HighByteBit(v, 5); HighByteBit(v, 6); HighByteBit(v, 7);
    LowByteBit(v, 0); LowByteBit(v, 1); LowByteBit(v, 2); LowByteBit(v, 3);
    assert Bit(0x24, 2) && !Bit(0x24, 3) && Bit(0x24, 5) && !Bit(0x24, 6) && !Bit(0x24, 7);
    assert Bit(5, 0) && !Bit(5, 1) && Bit(5, 2) && !Bit(5, 3);
  }
}
